=== FILE: README.md ===
# TechNewsFeed in Dafny

A model of the logic inside the React component `TechNewsFeed` of the news
app front end. With the hooks taken away the component is a few list
functions and a small state record, and that is what is modelled here:

- the **filter/sort pipeline** (`filteredNews`): keep the items of the
  selected source unless the filter is `All`; keep the items whose
  lower-cased title or snippet contains the trimmed, lower-cased query (all
  of them when that query is empty); sort ascending by `position`, stably;
- the **sources facet list** (`sources`): `All` followed by the distinct
  source names in first-seen order, a missing name counting as `""`;
- the **paginator**: four items per page, `ceil(n / 4)` pages, a page as a
  JavaScript `slice` of the filtered list, and `goToPage`, which only moves
  to a page that exists;
- the **bookmark list**: toggle (remove every occurrence when present,
  otherwise prepend) and the inline remove button;
- the **query cache step** of `getSerpData` and the **debounce guard**: a
  cached query adopts the cached list without a request; a 200 response is
  stored and adopted; anything else leaves the list and the cache alone;
  only the trimmed, non-blank query is ever scheduled;
- the **component** as a state machine over these pieces: typing, choosing
  a source, the debounce timer firing, page controls and bookmark controls.

Modules, one per concern:

| file | module | contents |
|---|---|---|
| wrappers.dfy | `Wrappers` | `Option` |
| seqs.dfy | `Seqs` | generic `Filter`, `NoDup`, `FirstIndex`, `Distinct` (first-seen order, the JavaScript `Set`) |
| text.dfy | `Text` | ECMAScript `trim` (the exact WhiteSpace and LineTerminator set), ASCII `toLowerCase`, `includes` |
| news.dfy | `News` | `NewsItem` and `Source`: `title`, `snippet`, `source` and the source's `name` may be absent; `link`, `date`, `thumbnail` and an integer `position` are always present |
| feed.dfy | `Feed` | the filter/sort pipeline with a stable insertion sort |
| facets.dfy | `Facets` | the sources facet list |
| pagination.dfy | `Pagination` | page count, `slice`, `goToPage` |
| bookmarks.dfy | `Bookmarks` | toggle and remove |
| search.dfy | `Search` | the cache lookup, the fetch outcome and the debounce guard |
| component.dfy | `Component` | the state record, events and the invariant every reachable state keeps |

The network is a parameter: the debounce timer's firing carries a
`FetchOutcome`, either `Responded(status, data)` or `Failed`, which is what
axios would have produced. Time is not modelled: the timer is a single
`pending` slot holding the query it will fetch.

The model follows the code as written, with one exception: the cache
lookup on line 21 has a defect (see "## Findings"), and the component is
built on the corrected lookup, so every `Component` property describes the
component with that defect repaired. Some consequences of the code as
written:

- only status 200 stores and adopts a response (line 29); any other status,
  including other 2xx codes axios resolves with, leaves everything as it is;
- typing the value already in the box re-runs no effect, so the scheduled
  timer survives (the effect's dependency list on line 47);
- neither typing nor choosing a source resets the current page, so a page
  beyond the new last page is empty (`Component.NarrowedFilterCanEmptyPage`);
- the facet `""` offered for items without a source name selects nothing,
  because `undefined === ""` is false on line 52
  (`Facets.EmptyFacetHidesUnnamedSources`).

## Model

All paths are in `news_app_frontend/src/components/TechNewsFeed.jsx`.

| member | source | states |
|---|---|---|
| Feed.NormalizeQuery | news_app_frontend/src/components/TechNewsFeed.jsx:50 | the normalized query is empty exactly when the typed query is all whitespace, and never longer than it |
| Feed.BySource | news_app_frontend/src/components/TechNewsFeed.jsx:52 | the source filter keeps every matching item with its full multiplicity and nothing that does not match |
| Feed.ByQuery | news_app_frontend/src/components/TechNewsFeed.jsx:53-60 | the text filter keeps every item whose title or snippet contains the query, with its multiplicity, and nothing else |
| Feed.SortByPosition | news_app_frontend/src/components/TechNewsFeed.jsx:61 | the sort output is ordered by position and is a permutation of its input |
| Feed.SortByPositionStable | news_app_frontend/src/components/TechNewsFeed.jsx:61 | the sort is stable: items sharing a position keep their relative order |
| Feed.SortSortedIsIdentity | news_app_frontend/src/components/TechNewsFeed.jsx:61 | sorting an already ordered list leaves it unchanged |
| Feed.FilteredNews | news_app_frontend/src/components/TechNewsFeed.jsx:49-62 | the view is ordered by position, a sub-multiset of the fetched list, holds only items passing both filters, and holds every passing item as often as it was fetched |
| Feed.SourceFilterSound | news_app_frontend/src/components/TechNewsFeed.jsx:52 | under a filter other than All every shown item has a source whose name is the filter; items without a source never show |
| Feed.QueryFilterSound | news_app_frontend/src/components/TechNewsFeed.jsx:50-60 | every shown item has an empty trimmed lower-cased query, or that query occurs in its lower-cased title, or in its lower-cased snippet with a missing snippet read as empty |
| Feed.FilteredNewsIdempotent | news_app_frontend/src/components/TechNewsFeed.jsx:49-62 | running the pipeline on its own output gives the same list |
| Feed.ShowAllKeepsEverything | news_app_frontend/src/components/TechNewsFeed.jsx:49-62 | with filter All and a blank query the view is a permutation of the fetched list, and the list itself when it is already ordered |
| Seqs.Distinct | news_app_frontend/src/components/TechNewsFeed.jsx:65-66 | the distinct values have no duplicates, are exactly the input's values, and appear in order of first occurrence |
| Facets.Sources | news_app_frontend/src/components/TechNewsFeed.jsx:64-67 | the facet list starts with All, its tail has no duplicates, holds every item's label and nothing else, in first-seen order |
| Facets.SingleSourceFacets | news_app_frontend/src/components/TechNewsFeed.jsx:64-67 | a non-empty list from one source yields exactly All and that source |
| Facets.EmptyFacetHidesUnnamedSources | news_app_frontend/src/components/TechNewsFeed.jsx:65 | an item without a source name puts the facet "" on offer, yet selecting "" shows only items whose name really is "" (line 52) |
| Pagination.TotalPages | news_app_frontend/src/components/TechNewsFeed.jsx:69 | the page count is the least number of four-item pages holding the list; zero exactly for an empty list |
| Pagination.PageOf | news_app_frontend/src/components/TechNewsFeed.jsx:71-74 | a page from 1 up holds at most four items |
| Pagination.PageInRange | news_app_frontend/src/components/TechNewsFeed.jsx:71-74 | an existing page is the run of items starting at (page - 1) * 4, and holds one to four items |
| Pagination.PageBeyondLastIsEmpty | news_app_frontend/src/components/TechNewsFeed.jsx:69-74 | a page above the page count is empty |
| Pagination.ItemOnItsPage | news_app_frontend/src/components/TechNewsFeed.jsx:69-74 | item i is shown on page i / 4 + 1 at place i % 4, and that page exists |
| Pagination.PagesUpToIsPrefix | news_app_frontend/src/components/TechNewsFeed.jsx:69-74 | the first k pages concatenated are the first 4k items of the list |
| Pagination.AllPagesRebuildList | news_app_frontend/src/components/TechNewsFeed.jsx:69-74 | concatenating pages 1 to the page count gives back the whole list |
| Pagination.GoToPage | news_app_frontend/src/components/TechNewsFeed.jsx:76-80 | the page moves to the target exactly when 1 <= target <= page count and stays put otherwise; it never drops below 1 |
| Pagination.GoToPageShowsItems | news_app_frontend/src/components/TechNewsFeed.jsx:76-80 | whenever goToPage moves, the page it moves to shows at least one item |
| Bookmarks.Remove | news_app_frontend/src/components/TechNewsFeed.jsx:329 | removing a link drops every occurrence of it and keeps every other link as often as before |
| Bookmarks.RemoveAbsent | news_app_frontend/src/components/TechNewsFeed.jsx:329 | removing a link that is not bookmarked changes nothing |
| Bookmarks.RemoveSingleOccurrence | news_app_frontend/src/components/TechNewsFeed.jsx:329 | removing a link that occurs once leaves the links before and after it in order |
| Bookmarks.RemoveAt | news_app_frontend/src/components/TechNewsFeed.jsx:329 | in a duplicate-free list, removing the i-th link is cutting position i out |
| Bookmarks.RemoveNoDup | news_app_frontend/src/components/TechNewsFeed.jsx:329 | removal keeps a list duplicate-free |
| Bookmarks.Toggle | news_app_frontend/src/components/TechNewsFeed.jsx:82-86 | after a toggle the link is bookmarked exactly when it was not; an absent link is prepended, a present one removed; no duplicates appear |
| Bookmarks.ToggleTwiceFromAbsent | news_app_frontend/src/components/TechNewsFeed.jsx:82-86 | toggling an absent link twice restores the list |
| Bookmarks.ToggleTwiceFromPresent | news_app_frontend/src/components/TechNewsFeed.jsx:82-86 | toggling a present link twice moves it, once, to the front |
| Bookmarks.ToggleKeepsOthers | news_app_frontend/src/components/TechNewsFeed.jsx:82-86 | a toggle never adds or removes any other link |
| Search.PrototypeNamesAreFalseHits | news_app_frontend/src/components/TechNewsFeed.jsx:21 | a prototype member name that was never stored is a hit for the lookup as written and a miss for the corrected one |
| Search.EmptyCacheHitsOnToString | news_app_frontend/src/components/TechNewsFeed.jsx:21 | on the empty cache the lookup as written already hits on toString |
| Search.PrototypeNameReachesLookup | news_app_frontend/src/components/TechNewsFeed.jsx:40-43 | typing toString schedules the lookup of toString, so the false hit is reachable |
| Search.GetSerpData | news_app_frontend/src/components/TechNewsFeed.jsx:20-36 | a request is made exactly for an uncached term; a hit adopts the cached list and changes nothing else; a 200 stores and adopts the data; anything else leaves list and cache alone; stored entries never change |
| Search.RepeatQueryHitsCache | news_app_frontend/src/components/TechNewsFeed.jsx:20-36 | after a 200 for a term, asking again sends nothing and adopts the stored list as the fetched results |
| Search.DebounceTarget | news_app_frontend/src/components/TechNewsFeed.jsx:40-43 | nothing is scheduled exactly for an all-whitespace query; otherwise the scheduled term is the trimmed query, non-empty and already trimmed |
| Search.DebounceTargetOfTrimmed | news_app_frontend/src/components/TechNewsFeed.jsx:40-43 | a query with no whitespace at either end is scheduled unchanged |
| Text.TrimStart | news_app_frontend/src/components/TechNewsFeed.jsx:40 | the result is a suffix whose dropped prefix is all whitespace and which does not start with whitespace |
| Text.TrimEnd | news_app_frontend/src/components/TechNewsFeed.jsx:40 | the result is a prefix whose dropped suffix is all whitespace and which does not end with whitespace |
| Text.Trim | news_app_frontend/src/components/TechNewsFeed.jsx:40 | the trimmed text is empty or starts and ends with a non-whitespace character |
| Text.TrimIsInfix | news_app_frontend/src/components/TechNewsFeed.jsx:40 | the trimmed text is a slice of the original with only whitespace cut on either side |
| Text.TrimOfTrimmed | news_app_frontend/src/components/TechNewsFeed.jsx:40 | text without whitespace at either end is its own trim |
| Text.TrimIdempotent | news_app_frontend/src/components/TechNewsFeed.jsx:40 | trimming twice is trimming once |
| Text.TrimEmptyIff | news_app_frontend/src/components/TechNewsFeed.jsx:40 | the trim is empty exactly when the text is all whitespace, the guard that keeps blank queries from being scheduled |
| Text.ToLowerIdempotent | news_app_frontend/src/components/TechNewsFeed.jsx:50 | lower-casing twice is lower-casing once |
| Component.Step | news_app_frontend/src/components/TechNewsFeed.jsx:135-145 | only a timer firing sends a request, and only its scheduled query; typing and choosing a source keep the page; choosing a source sets the filter to it, a bookmark button toggles its link and a remove button removes its link (the `Bookmarks` contracts); each event changes only its own part of the state, and only typing or a firing touches the scheduled timer; typing sets the query and, when the text changes, schedules its debounce target, while typing the current text changes nothing; a firing clears the timer and adopts the cache and results `getSerpData` produces for the scheduled query |
| Component.InitValid | news_app_frontend/src/components/TechNewsFeed.jsx:11-18 | the first render satisfies the invariant |
| Component.StepPreservesValid | news_app_frontend/src/components/TechNewsFeed.jsx:20-86 | every event keeps page at least 1, bookmarks duplicate-free, cache keys trimmed and non-blank, and the timer carrying the trimmed current query |
| Component.RunPreservesValid | news_app_frontend/src/components/TechNewsFeed.jsx:20-86 | every state reachable from a valid one is valid |
| Component.RequestsAreTrimmedAndUncached | news_app_frontend/src/components/TechNewsFeed.jsx:20-43 | a request only ever carries the trimmed current query, never a blank one, and never a cached one |
| Component.GoToPageEvent | news_app_frontend/src/components/TechNewsFeed.jsx:76-80 | a page control moves to the target exactly when it exists and otherwise leaves the whole state unchanged; nothing but the page changes |
| Component.RunTypeAll | news_app_frontend/src/components/TechNewsFeed.jsx:135 | running typing events through the component is typing each value in turn |
| Component.TypedSchedulesLast | news_app_frontend/src/components/TechNewsFeed.jsx:39-47 | typing from a state whose timer matches its query leaves the timer on the last value typed |
| Component.BurstTypedChanged | news_app_frontend/src/components/TechNewsFeed.jsx:39-47 | once the first value typed differs from the box, the timer ends on the last value typed |
| Component.TypingBurstSchedulesLast | news_app_frontend/src/components/TechNewsFeed.jsx:39-47 | after a burst of keystrokes at most one timer is scheduled: for the trimmed last value, or none when that value is blank; earlier values are never fetched |
| Component.TimerFiresOnce | news_app_frontend/src/components/TechNewsFeed.jsx:42-46 | a timer that fired is gone: a second firing sends nothing |
| Component.CachedQueryShowsCachedView | news_app_frontend/src/components/TechNewsFeed.jsx:21-23 | when the scheduled query is cached nothing is sent and the view is the cached list filtered and sorted |
| Component.InitSchedulesSport | news_app_frontend/src/components/TechNewsFeed.jsx:11 | the first render schedules a fetch of sport |
| Component.FirstFetch | news_app_frontend/src/components/TechNewsFeed.jsx:27-31 | the first timer sends sport; a 200 response caches the data under sport and adopts it as the fetched results (the view then filters it for sport) |
| Component.NarrowedFilterCanEmptyPage | news_app_frontend/src/components/TechNewsFeed.jsx:145 | choosing a source keeps the page number, so a page beyond the new page count shows nothing |

## Left out

- `serp_backend/tool1.py`, the Flask route that forwards the query to SerpAPI: it is I/O over a service that is not part of this model.
- The axios request itself: its outcome is the `FetchOutcome` parameter of the timer event; a thrown error and a non-200 response are both "leave everything as it is".
- Debounce timing: the 500 ms delay is not modelled; the single `pending` slot stands for the timer that `clearTimeout` keeps unique.
- Response races: requests complete at the moment the timer fires, so two requests are never in flight at once and a late response never overwrites a newer one.
- `handleShare`: it calls `navigator.share`, the clipboard and `alert`, which are host-platform calls.
- JSX rendering, animations, icons, and the referential stability of `useMemo`/`useCallback`, which are React runtime concerns; only the values they compute are modelled.
- The Previous/Next buttons' disabled states and the eight-facet cut-off of the sidebar (line 290) are rendering; the buttons' clicks are `goToPage` events.
- The `totalPages > 1 &&` guard on line 246, which hides every page control when there is at most one page: the model allows a `GoToPage` event in every state, so it admits more than the interface does. In the interface, a filter that narrows the list to four items or fewer while the user is on page 2 or later leaves an empty page with no control to leave it.
- Text.ToLower: lower-cases ASCII letters only, because full Unicode case mapping (including the characters whose lower case is longer) is not modelled; `trim` uses the exact ECMAScript whitespace set.
- Search.GetSerpData: is built on the own-key lookup of "## Findings", not on the truthiness lookup of line 21, so the component never takes the false cache hit on an `Object.prototype` name (the as-written lookup is `Search.ProbeAsWritten`); it also takes a 200 response to be a list of news items, as the backend only returns `news_results` and fails with a server error otherwise.
- Feed.SortByPosition: assumes every item has an integer `position`; for an item without a numeric one, `a.position - b.position` is NaN, the comparator is inconsistent and the order is implementation-defined.
- Search.ProbeAsWritten: the inherited members are the twelve names of `Object.prototype` (`__proto__` included); assignments to `__proto__`, which would change the prototype rather than store an entry, are not modelled.

## Findings

| source | as written | input that shows it | evidently intended | confidence | as-written member | corrected member |
|---|---|---|---|---|---|---|
| news_app_frontend/src/components/TechNewsFeed.jsx:21 | the cache is a plain object checked for truthiness, so an inherited `Object.prototype` member counts as a cached entry | any of the twelve names on an empty cache, e.g. typing `toString`: no request is ever sent. `setSerpData` treats a function as an updater and calls it on the current list: `constructor` returns that list unchanged; `toString` makes the results the string "[object Undefined]" and `serpData.filter` on lines 51-52 throws; the other nine methods throw inside the updater on their undefined `this`; `__proto__` stores `Object.prototype` and lines 51-52 throw | only queries stored by an earlier 200 response count as cached; `toString` is fetched like any other query | not executed; high | Search.ProbeAsWritten, Search.EmptyCacheHitsOnToString | Search.ProbeOwn, Search.GetSerpData |

=== FILE: bookmarks.dfy ===
/** The bookmark list: saved article links, newest first. */
module Bookmarks {
  import opened Seqs

  /** `prev.filter((l) => l !== link)`: every occurrence of `link` is
      dropped; every other link keeps its count and its relative order. */
  function Remove(bookmarks: seq<string>, link: string): (r: seq<string>)
    ensures link !in r
    ensures multiset(r) <= multiset(bookmarks)
    ensures forall l :: l in bookmarks && l != link ==> multiset(r)[l] == multiset(bookmarks)[l]
  {
    Filter(bookmarks, (l: string) => l != link)
  }

  /** Removing from a concatenation removes from each part. */
  lemma RemoveAppend(a: seq<string>, b: seq<string>, link: string)
    ensures Remove(a + b, link) == Remove(a, link) + Remove(b, link)
  {
    FilterAppend(a, b, (l: string) => l != link);
  }

  /** Removing a link that is not there changes nothing. */
  lemma RemoveAbsent(bookmarks: seq<string>, link: string)
    requires link !in bookmarks
    ensures Remove(bookmarks, link) == bookmarks
  {
    FilterKeepsAll(bookmarks, (l: string) => l != link);
  }

  /** Removing a link that occurs once, between `a` and `b`, leaves `a`
      followed by `b`. */
  lemma RemoveSingleOccurrence(a: seq<string>, b: seq<string>, link: string)
    requires link !in a && link !in b
    ensures Remove(a + [link] + b, link) == a + b
  {
    var lb := [link] + b;
    assert a + [link] + b == a + lb;
    var rlb := Remove(lb, link);
    RemoveAppend(a, lb, link);
    RemoveAppend([link], b, link);
    RemoveAbsent(a, link);
    RemoveAbsent(b, link);
    assert Remove([link], link) == [];
    assert rlb == b;
  }

  /** In a duplicate-free list, removing the link at index `i` closes the gap
      and leaves the links before and after it exactly as they were. */
  lemma RemoveAt(bookmarks: seq<string>, i: nat)
    requires NoDup(bookmarks) && i < |bookmarks|
    ensures Remove(bookmarks, bookmarks[i]) == bookmarks[..i] + bookmarks[i + 1..]
  {
    var link := bookmarks[i];
    var a := bookmarks[..i];
    var b := bookmarks[i + 1..];
    assert bookmarks == a + [link] + b;
    assert link !in a by {
      forall k | 0 <= k < |a| ensures a[k] != link { assert a[k] == bookmarks[k]; }
    }
    assert link !in b by {
      forall k | 0 <= k < |b| ensures b[k] != link { assert b[k] == bookmarks[i + 1 + k]; }
    }
    RemoveSingleOccurrence(a, b, link);
  }

  /** Removal keeps a list free of duplicates. */
  lemma RemoveNoDup(bookmarks: seq<string>, link: string)
    ensures NoDup(bookmarks) ==> NoDup(Remove(bookmarks, link))
  {
    if NoDup(bookmarks) {
      FilterNoDup(bookmarks, (l: string) => l != link);
    }
  }

  /** `toggleBookmark(link)`: removes `link` when it is saved and otherwise
      saves it at the front. On a duplicate-free list the result is
      duplicate-free and holds `link` exactly when the input did not. */
  function Toggle(bookmarks: seq<string>, link: string): (r: seq<string>)
    ensures link in r <==> link !in bookmarks
    ensures link !in bookmarks ==> r == [link] + bookmarks
    ensures link in bookmarks ==> r == Remove(bookmarks, link)
    ensures NoDup(bookmarks) ==> NoDup(r)
  {
    if link in bookmarks then
      RemoveNoDup(bookmarks, link);
      Remove(bookmarks, link)
    else
      [link] + bookmarks
  }

  /** Saving and then un-saving a link restores the list. */
  lemma ToggleTwiceFromAbsent(bookmarks: seq<string>, link: string)
    requires link !in bookmarks
    ensures Toggle(Toggle(bookmarks, link), link) == bookmarks
  {
    RemoveAppend([link], bookmarks, link);
    assert Remove([link], link) == [];
    RemoveAbsent(bookmarks, link);
  }

  /** Un-saving and re-saving a saved link moves it to the front. */
  lemma ToggleTwiceFromPresent(bookmarks: seq<string>, link: string)
    requires link in bookmarks
    ensures Toggle(Toggle(bookmarks, link), link) == [link] + Remove(bookmarks, link)
  {
  }

  /** The other links' membership is untouched by a toggle. */
  lemma ToggleKeepsOthers(bookmarks: seq<string>, link: string, other: string)
    requires other != link
    ensures other in Toggle(bookmarks, link) <==> other in bookmarks
  {
    if link in bookmarks && other in bookmarks {
      assert multiset(Remove(bookmarks, link))[other] == multiset(bookmarks)[other];
    }
  }
}

=== FILE: component.dfy ===
/** The `TechNewsFeed` component as a state machine: its state record, the
    user and timer events that change it, and the views derived from it. */
module Component {
  import opened Wrappers
  import opened Seqs
  import opened Text
  import opened News
  import Feed
  import Pagination
  import Bookmarks
  import Search

  /** The component's state. `pending` is the query of the debounce timer
      currently scheduled, if any. */
  datatype State = State(
    query: string,
    filter: string,
    currentPage: int,
    bookmarks: seq<string>,
    serpData: seq<NewsItem>,
    cache: Search.Cache,
    pending: Option<string>)

  /** What can happen to the component: the search input or the source
      selector changes, the debounce timer fires (with the outcome the
      network would give if asked), a page control or bookmark control is
      clicked. */
  datatype Event =
    | TypeQuery(text: string)
    | SelectFilter(value: string)
    | TimerFires(outcome: Search.FetchOutcome)
    | GoToPage(page: int)
    | ToggleBookmark(link: string)
    | RemoveBookmark(link: string)

  /** The next state and the query sent over the network, if any. */
  datatype Transition = Transition(next: State, request: Option<string>)

  /** The first render: query `sport`, filter `All`, page 1, nothing
      bookmarked, fetched or cached; the mount effect schedules `sport`. */
  function Init(): State {
    State(InitialQuery, Feed.All, 1, [], [], map[], Search.DebounceTarget(InitialQuery))
  }

  /** The search box's initial text. */
  const InitialQuery: string := "sport"

  /** The filtered, sorted view shown to the user. */
  function View(s: State): seq<NewsItem> {
    Feed.FilteredNews(s.serpData, s.query, s.filter)
  }

  function TotalPages(s: State): nat {
    Pagination.TotalPages(|View(s)|)
  }

  /** The items on the current page. */
  function PaginatedData(s: State): seq<NewsItem> {
    Pagination.PageOf(View(s), s.currentPage)
  }

  /** What every reachable state satisfies: the page is at least 1, the
      bookmarks hold no duplicates, every cache key is a trimmed non-blank
      query, and a scheduled timer carries the trimmed current query. */
  predicate Valid(s: State) {
    && s.currentPage >= 1
    && NoDup(s.bookmarks)
    && (forall k :: k in s.cache ==> k != "" && Trim(k) == k)
    && (s.pending.Some? ==> s.pending == Search.DebounceTarget(s.query))
  }

  /** Typing into the search box. A new value cancels the scheduled timer
      and, unless the value is blank, schedules its trimmed text; typing the
      current value changes nothing, as the effect's dependencies are
      unchanged. The page is not reset. */
  function OnType(s: State, text: string): State {
    if text == s.query then s else s.(query := text, pending := Search.DebounceTarget(text))
  }

  /** The debounce timer fires: `getSerpData` runs on the scheduled query
      and the timer is gone. Without a scheduled timer nothing happens. */
  function OnTimer(s: State, outcome: Search.FetchOutcome): Transition {
    match s.pending
    case None => Transition(s, None)
    case Some(term) =>
      var f := Search.GetSerpData(s.cache, s.serpData, term, outcome);
      Transition(s.(cache := f.cache, serpData := f.serpData, pending := None), f.request)
  }

  /** A page control: `goToPage` with the page count of the current view. */
  function OnGoToPage(s: State, page: int): State {
    s.(currentPage := Pagination.GoToPage(s.currentPage, page, TotalPages(s)))
  }

  /** One event, with the query sent over the network if any. Neither a new
      query nor a new filter resets the page. */
  function Step(s: State, e: Event): (t: Transition)
    ensures t.request.Some? ==> e.TimerFires? && s.pending.Some? && t.request == s.pending
    ensures !e.GoToPage? ==> t.next.currentPage == s.currentPage
    ensures !(e.ToggleBookmark? || e.RemoveBookmark?) ==> t.next.bookmarks == s.bookmarks
    ensures !e.TimerFires? ==> t.next.cache == s.cache && t.next.serpData == s.serpData
    ensures !e.TypeQuery? ==> t.next.query == s.query
    ensures !e.SelectFilter? ==> t.next.filter == s.filter
    ensures !(e.TypeQuery? || e.TimerFires?) ==> t.next.pending == s.pending
    ensures e.SelectFilter? ==> t.next.filter == e.value
    ensures e.ToggleBookmark? ==> t.next.bookmarks == Bookmarks.Toggle(s.bookmarks, e.link)
    ensures e.RemoveBookmark? ==> t.next.bookmarks == Bookmarks.Remove(s.bookmarks, e.link)
    ensures e.TypeQuery? ==> t.next.query == e.text
    ensures e.TypeQuery? && e.text == s.query ==> t.next == s
    ensures e.TypeQuery? && e.text != s.query ==> t.next.pending == Search.DebounceTarget(e.text)
    ensures e.TimerFires? ==> t.next.pending.None?
    ensures e.TimerFires? && s.pending.Some? ==>
              var f := Search.GetSerpData(s.cache, s.serpData, s.pending.value, e.outcome);
              t.next.cache == f.cache && t.next.serpData == f.serpData
  {
    match e
    case TypeQuery(text) => Transition(OnType(s, text), None)
    case SelectFilter(value) => Transition(s.(filter := value), None)
    case TimerFires(outcome) => OnTimer(s, outcome)
    case GoToPage(page) => Transition(OnGoToPage(s, page), None)
    case ToggleBookmark(link) =>
      Transition(s.(bookmarks := Bookmarks.Toggle(s.bookmarks, link)), None)
    case RemoveBookmark(link) =>
      Transition(s.(bookmarks := Bookmarks.Remove(s.bookmarks, link)), None)
  }

  /** Applies the events in order. */
  function Run(s: State, events: seq<Event>): State
    decreases |events|
  {
    if |events| == 0 then s else Run(Step(s, events[0]).next, events[1..])
  }

  lemma InitValid()
    ensures Valid(Init())
  {
  }

  lemma OnTypePreservesValid(s: State, text: string)
    requires Valid(s)
    ensures Valid(OnType(s, text))
  {
  }

  lemma OnTimerPreservesValid(s: State, outcome: Search.FetchOutcome)
    requires Valid(s)
    ensures Valid(OnTimer(s, outcome).next)
  {
    if s.pending.Some? {
      var term := s.pending.value;
      var f := Search.GetSerpData(s.cache, s.serpData, term, outcome);
      var n := OnTimer(s, outcome).next;
      assert n == s.(cache := f.cache, serpData := f.serpData, pending := None);
      assert term != "" && Trim(term) == term;
      forall k | k in f.cache
        ensures k != "" && Trim(k) == k
      {
        if k != term { assert k in s.cache; }
      }
    }
  }

  lemma OnGoToPagePreservesValid(s: State, page: int)
    requires Valid(s)
    ensures Valid(OnGoToPage(s, page))
  {
  }

  /** Every event keeps the state valid. */
  lemma StepPreservesValid(s: State, e: Event)
    requires Valid(s)
    ensures Valid(Step(s, e).next)
  {
    match e
    case TypeQuery(text) =>
      OnTypePreservesValid(s, text);
    case SelectFilter(value) =>
    case TimerFires(outcome) =>
      OnTimerPreservesValid(s, outcome);
    case GoToPage(page) =>
      OnGoToPagePreservesValid(s, page);
    case ToggleBookmark(link) =>
    case RemoveBookmark(link) =>
      Bookmarks.RemoveNoDup(s.bookmarks, link);
  }

  /** Every state reachable from the first render is valid. */
  lemma {:induction false} RunPreservesValid(s: State, events: seq<Event>)
    requires Valid(s)
    ensures Valid(Run(s, events))
    decreases |events|
  {
    if |events| > 0 {
      StepPreservesValid(s, events[0]);
      RunPreservesValid(Step(s, events[0]).next, events[1..]);
    }
  }

  /** A request only ever carries the trimmed current query, never a blank
      one, and only for a query that is not cached. */
  lemma RequestsAreTrimmedAndUncached(s: State, e: Event)
    requires Valid(s)
    requires Step(s, e).request.Some?
    ensures var t := Step(s, e).request.value;
            t == Trim(s.query) && t != "" && t !in s.cache
  {
  }

  /** `goToPage` moves to the requested page exactly when it exists and
      otherwise changes nothing; no other part of the state changes. */
  lemma GoToPageEvent(s: State, page: int)
    ensures var n := Step(s, GoToPage(page)).next;
            && (1 <= page <= TotalPages(s) ==> n == s.(currentPage := page))
            && (!(1 <= page <= TotalPages(s)) ==> n == s)
  {
  }

  /** Typing events for each value in turn. */
  function TypeAll(texts: seq<string>): (es: seq<Event>)
    ensures |es| == |texts|
    ensures forall i :: 0 <= i < |texts| ==> es[i] == TypeQuery(texts[i])
  {
    seq(|texts|, i requires 0 <= i < |texts| => TypeQuery(texts[i]))
  }

  /** The state after typing each value in turn. */
  function Typed(s: State, texts: seq<string>): State
    decreases |texts|
  {
    if |texts| == 0 then s else Typed(OnType(s, texts[0]), texts[1..])
  }

  /** Running typing events through `Step` is `Typed`. */
  lemma {:induction false} RunTypeAll(s: State, texts: seq<string>)
    ensures Run(s, TypeAll(texts)) == Typed(s, texts)
    decreases |texts|
  {
    var es := TypeAll(texts);
    if |texts| > 0 {
      assert Step(s, TypeQuery(texts[0])) == Transition(OnType(s, texts[0]), None);
      assert es[0] == TypeQuery(texts[0]);
      assert es[1..] == TypeAll(texts[1..]);
      RunTypeAll(OnType(s, texts[0]), texts[1..]);
    }
  }

  /** Typing from a state whose timer carries the current query ends with
      the timer carrying the last value typed. */
  lemma {:induction false} TypedSchedulesLast(s: State, texts: seq<string>)
    requires s.pending == Search.DebounceTarget(s.query)
    requires |texts| > 0
    ensures Typed(s, texts).query == texts[|texts| - 1]
    ensures Typed(s, texts).pending == Search.DebounceTarget(texts[|texts| - 1])
    decreases |texts|
  {
    var s1 := OnType(s, texts[0]);
    var rest := texts[1..];
    var last := texts[|texts| - 1];
    assert Typed(s, texts) == Typed(s1, rest);
    assert s1.pending == Search.DebounceTarget(s1.query);
    if |rest| == 0 {
      assert Typed(s1, rest) == s1;
      assert s1.query == last;
    } else {
      assert rest[|rest| - 1] == last;
      TypedSchedulesLast(s1, rest);
    }
  }

  /** Typing a burst of values, each keystroke changing the text: at most
      one timer is left scheduled, carrying the trimmed last value (none
      when that value is blank); the superseded values will never be
      fetched. */
  lemma TypingBurstSchedulesLast(s: State, texts: seq<string>)
    requires |texts| > 0 && texts[0] != s.query
    ensures Run(s, TypeAll(texts)).query == texts[|texts| - 1]
    ensures Run(s, TypeAll(texts)).pending == Search.DebounceTarget(texts[|texts| - 1])
  {
    RunTypeAll(s, texts);
    BurstTypedChanged(s, texts);
  }

  /** The first value typed is new: from then on the timer carries the
      current query. */
  lemma BurstTypedChanged(s: State, texts: seq<string>)
    requires |texts| > 0 && texts[0] != s.query
    ensures Typed(s, texts).query == texts[|texts| - 1]
    ensures Typed(s, texts).pending == Search.DebounceTarget(texts[|texts| - 1])
  {
    var s1 := OnType(s, texts[0]);
    var rest := texts[1..];
    var last := texts[|texts| - 1];
    assert Typed(s, texts) == Typed(s1, rest);
    assert s1.pending == Search.DebounceTarget(s1.query);
    if |rest| == 0 {
      assert Typed(s1, rest) == s1;
    } else {
      assert rest[|rest| - 1] == last;
      TypedSchedulesLast(s1, rest);
    }
  }

  /** A fired timer is gone: a second firing sends nothing. */
  lemma TimerFiresOnce(s: State, first: Search.FetchOutcome, second: Search.FetchOutcome)
    ensures Step(Step(s, TimerFires(first)).next, TimerFires(second)).request.None?
  {
  }

  /** When the timer fires for a cached query, nothing is sent and the view
      is the cached list filtered and sorted for the current query and
      filter. */
  lemma CachedQueryShowsCachedView(s: State, outcome: Search.FetchOutcome)
    requires s.pending.Some? && s.pending.value in s.cache
    ensures var t := Step(s, TimerFires(outcome));
            t.request.None? &&
            View(t.next) == Feed.FilteredNews(s.cache[s.pending.value], s.query, s.filter)
  {
  }

  /** The first render schedules a fetch of `sport`. */
  lemma InitSchedulesSport()
    ensures Init().pending == Some("sport")
  {
    var sport := InitialQuery;
    assert !IsWhitespace(sport[0]) && !IsWhitespace(sport[|sport| - 1]);
    Search.DebounceTargetOfTrimmed(sport);
  }

  /** The first render's timer sends `sport`; a 200 response with `data`
      caches it under `sport` and shows it. */
  lemma FirstFetch(data: seq<NewsItem>)
    ensures var t := Step(Init(), TimerFires(Search.Responded(200, data)));
            && t.request == Some("sport")
            && t.next.serpData == data
            && t.next.cache == map["sport" := data]
  {
    var sport := "sport";
    InitSchedulesSport();
    var s := Init();
    var outcome := Search.Responded(200, data);
    var f := Search.GetSerpData(s.cache, s.serpData, sport, outcome);
    assert f == Search.FetchResult(map[sport := data], data, Some(sport));
    assert Step(s, TimerFires(outcome)) == OnTimer(s, outcome);
  }

  /** Narrowing the filter keeps the page number, so a page beyond the new
      last page shows nothing. */
  lemma NarrowedFilterCanEmptyPage(s: State, value: string)
    ensures var n := Step(s, SelectFilter(value)).next;
            && n.currentPage == s.currentPage
            && (s.currentPage > TotalPages(n) ==> PaginatedData(n) == [])
  {
    var n := Step(s, SelectFilter(value)).next;
    if s.currentPage > TotalPages(n) {
      Pagination.PageBeyondLastIsEmpty(View(n), n.currentPage);
    }
  }
}

=== FILE: facets.dfy ===
/** The source facet list offered by the filter selector. */
module Facets {
  import opened Wrappers
  import opened Seqs
  import opened News
  import Feed

  /** `n.source?.name || ""`: the facet label of an item; an absent source
      or name gives the empty label. */
  function Label(n: NewsItem): (l: string)
    ensures SourceName(n).Some? ==> l == SourceName(n).value
    ensures SourceName(n).None? ==> l == ""
  {
    SourceName(n).GetOr("")
  }

  function Labels(xs: seq<NewsItem>): (ls: seq<string>)
    ensures |ls| == |xs|
    ensures forall i :: 0 <= i < |xs| ==> ls[i] == Label(xs[i])
  {
    seq(|xs|, i requires 0 <= i < |xs| => Label(xs[i]))
  }

  /** `sources`: the sentinel `All` followed by the distinct labels of the
      unfiltered result list, in the order each label is first seen. */
  function Sources(serpData: seq<NewsItem>): (r: seq<string>)
    ensures |r| >= 1 && r[0] == Feed.All
    ensures NoDup(r[1..])
    ensures forall i :: 0 <= i < |serpData| ==> Label(serpData[i]) in r[1..]
    ensures forall s :: s in r[1..] ==> exists i :: 0 <= i < |serpData| && Label(serpData[i]) == s
    ensures forall i, j :: 1 <= i < j < |r| ==>
              && r[i] in Labels(serpData) && r[j] in Labels(serpData)
              && FirstIndex(Labels(serpData), r[i]) < FirstIndex(Labels(serpData), r[j])
  {
    var labels := Labels(serpData);
    var d := Distinct(labels);
    var r := [Feed.All] + d;
    assert r[1..] == d;
    assert forall s :: s in d ==> exists i :: 0 <= i < |serpData| && Label(serpData[i]) == s by {
      forall s | s in d ensures exists i :: 0 <= i < |serpData| && Label(serpData[i]) == s {
        var i := FirstIndex(labels, s);
        assert Label(serpData[i]) == s;
      }
    }
    assert forall i :: 0 <= i < |serpData| ==> Label(serpData[i]) in d by {
      forall i | 0 <= i < |serpData| ensures Label(serpData[i]) in d {
        assert labels[i] in labels;
      }
    }
    r
  }

  /** The facet list depends only on which labels occur and where they first
      occur: a result set whose labels are all one source gives exactly
      `["All", that source]`. */
  lemma SingleSourceFacets(serpData: seq<NewsItem>, name: string)
    requires |serpData| > 0
    requires forall i :: 0 <= i < |serpData| ==> Label(serpData[i]) == name
    ensures Sources(serpData) == [Feed.All, name]
  {
    var r := Sources(serpData);
    var t := r[1..];
    assert Label(serpData[0]) in t;
    assert forall k :: 0 <= k < |t| ==> t[k] == name by {
      forall k | 0 <= k < |t| ensures t[k] == name { assert t[k] in t; }
    }
    NoDupCountAtMostOne(t, name);
    ConstantCount(t, name);
    assert r == [Feed.All] + t;
  }

  /** The empty facet is offered for items without a source name, yet
      choosing it shows none of them: the source filter compares the absent
      name, not its label, with the selected value. */
  lemma EmptyFacetHidesUnnamedSources(serpData: seq<NewsItem>, query: string)
    requires exists i :: 0 <= i < |serpData| && SourceName(serpData[i]).None?
    ensures "" in Sources(serpData)[1..]
    ensures forall n :: n in Feed.FilteredNews(serpData, query, "") ==> SourceName(n) == Some("")
  {
    var i :| 0 <= i < |serpData| && SourceName(serpData[i]).None?;
    assert Label(serpData[i]) == "";
  }
}

=== FILE: feed.dfy ===
/** The derived, filtered and ordered view of the current result list:
    a source facet filter, a free-text filter over title and snippet, and a
    stable ascending sort by position. */
module Feed {
  import opened Wrappers
  import opened Seqs
  import opened Text
  import opened News

  /** The filter value that selects every source. */
  const All: string := "All"

  /** The text the items are matched against: the query trimmed, then
      lower-cased. */
  function NormalizeQuery(query: string): (q: string)
    ensures |q| <= |query|
    ensures q == "" <==> AllWhitespace(query)
  {
    TrimEmptyIff(query);
    ToLower(Trim(query))
  }

  /** The facet test: any item under `All`, otherwise only items whose
      source name is exactly `filter`. */
  predicate MatchesSource(n: NewsItem, filter: string) {
    filter == All || SourceName(n) == Some(filter)
  }

  /** The text test for a normalized query `q`: an empty query matches
      everything; otherwise `q` must occur in the lower-cased title (an item
      without a title does not match on it) or in the lower-cased snippet,
      a missing snippet counting as the empty string. */
  predicate MatchesQuery(n: NewsItem, q: string) {
    || q == ""
    || (n.title.Some? && Contains(ToLower(n.title.value), q))
    || Contains(ToLower(n.snippet.GetOr("")), q)
  }

  predicate SortedByPosition(xs: seq<NewsItem>) {
    forall i, j :: 0 <= i < j < |xs| ==> xs[i].position <= xs[j].position
  }

  /** The items of `xs` whose position is `p`, in their order in `xs`. */
  function WithPosition(xs: seq<NewsItem>, p: int): (r: seq<NewsItem>)
    ensures forall i :: 0 <= i < |r| ==> r[i].position == p
  {
    Filter(xs, (n: NewsItem) => n.position == p)
  }

  lemma WithPositionAppend(a: seq<NewsItem>, b: seq<NewsItem>, p: int)
    ensures WithPosition(a + b, p) == WithPosition(a, p) + WithPosition(b, p)
  {
    FilterAppend(a, b, (n: NewsItem) => n.position == p);
  }

  /** Splitting off the head of a list for `WithPosition`. */
  lemma WithPositionCons(y: NewsItem, t: seq<NewsItem>, p: int)
    ensures WithPosition([y] + t, p) ==
            if y.position == p then [y] + WithPosition(t, p) else WithPosition(t, p)
  {
    WithPositionAppend([y], t, p);
  }

  /** Inserts `x` into the sorted `s` in front of every item whose position
      is at least its own, so that it precedes the items it ties with. */
  function InsertByPosition(x: NewsItem, s: seq<NewsItem>): (r: seq<NewsItem>)
    requires SortedByPosition(s)
    ensures SortedByPosition(r)
    ensures multiset(r) == multiset(s) + multiset{x}
    ensures |r| == |s| + 1 && (r[0] == x || (|s| > 0 && r[0] == s[0]))
  {
    if |s| == 0 || x.position <= s[0].position then
      [x] + s
    else
      assert s == [s[0]] + s[1..];
      [s[0]] + InsertByPosition(x, s[1..])
  }

  /** Inserting `x` adds it in front of the items it ties with and leaves
      every other position's items as they were. */
  lemma {:induction false} InsertByPositionStable(x: NewsItem, s: seq<NewsItem>, p: int)
    requires SortedByPosition(s)
    ensures WithPosition(InsertByPosition(x, s), p) ==
            if x.position == p then [x] + WithPosition(s, p) else WithPosition(s, p)
    decreases |s|
  {
    if |s| == 0 || x.position <= s[0].position {
      assert InsertByPosition(x, s) == [x] + s;
      WithPositionCons(x, s, p);
    } else {
      var h := s[0];
      var t := s[1..];
      var inserted := InsertByPosition(x, t);
      assert s == [h] + t;
      assert InsertByPosition(x, s) == [h] + inserted;
      InsertByPositionStable(x, t, p);
      WithPositionCons(h, inserted, p);
      WithPositionCons(h, t, p);
      assert x.position == p ==> h.position != p;
    }
  }

  /** `xs.sort((a, b) => a.position - b.position)`: a permutation of `xs`
      ascending by position. */
  function SortByPosition(xs: seq<NewsItem>): (r: seq<NewsItem>)
    ensures SortedByPosition(r)
    ensures multiset(r) == multiset(xs)
  {
    if |xs| == 0 then []
    else
      assert xs == [xs[0]] + xs[1..];
      InsertByPosition(xs[0], SortByPosition(xs[1..]))
  }

  /** The sort is stable, as ECMAScript requires of `Array.prototype.sort`:
      for every position, the items holding it appear in the order they had
      in the input. */
  lemma {:induction false} SortByPositionStable(xs: seq<NewsItem>, p: int)
    ensures WithPosition(SortByPosition(xs), p) == WithPosition(xs, p)
    decreases |xs|
  {
    if |xs| > 0 {
      assert xs == [xs[0]] + xs[1..];
      SortByPositionStable(xs[1..], p);
      InsertByPositionStable(xs[0], SortByPosition(xs[1..]), p);
      WithPositionCons(xs[0], xs[1..], p);
    }
  }

  /** Sorting a list that is already in position order leaves it as it is. */
  lemma {:induction false} SortSortedIsIdentity(xs: seq<NewsItem>)
    requires SortedByPosition(xs)
    ensures SortByPosition(xs) == xs
    decreases |xs|
  {
    if |xs| > 0 {
      SortSortedIsIdentity(xs[1..]);
      assert xs == [xs[0]] + xs[1..];
    }
  }

  /** The facet step: the items passing `MatchesSource`, in order. */
  function BySource(xs: seq<NewsItem>, filter: string): (r: seq<NewsItem>)
    ensures multiset(r) <= multiset(xs)
    ensures forall n :: n in r ==> MatchesSource(n, filter)
    ensures forall n :: n in xs && MatchesSource(n, filter) ==> multiset(r)[n] == multiset(xs)[n]
  {
    Filter(xs, (n: NewsItem) => MatchesSource(n, filter))
  }

  /** The text step: the items passing `MatchesQuery`, in order. */
  function ByQuery(xs: seq<NewsItem>, q: string): (r: seq<NewsItem>)
    ensures multiset(r) <= multiset(xs)
    ensures forall n :: n in r ==> MatchesQuery(n, q)
    ensures forall n :: n in xs && MatchesQuery(n, q) ==> multiset(r)[n] == multiset(xs)[n]
  {
    Filter(xs, (n: NewsItem) => MatchesQuery(n, q))
  }

  /** `filteredNews`: the items of `serpData` that pass the source facet and
      the text query, sorted ascending by position. Each kept item appears
      as often as it does in `serpData`, and nothing else appears. */
  function FilteredNews(serpData: seq<NewsItem>, query: string, filter: string): (r: seq<NewsItem>)
    ensures SortedByPosition(r)
    ensures multiset(r) <= multiset(serpData)
    ensures forall n :: n in r ==> MatchesSource(n, filter) && MatchesQuery(n, NormalizeQuery(query))
    ensures forall n :: n in serpData && MatchesSource(n, filter) && MatchesQuery(n, NormalizeQuery(query)) ==>
              multiset(r)[n] == multiset(serpData)[n]
  {
    var q := NormalizeQuery(query);
    var bySource := BySource(serpData, filter);
    var byQuery := ByQuery(bySource, q);
    var r := SortByPosition(byQuery);
    assert forall n :: n in r ==> n in byQuery by {
      forall n | n in r ensures n in byQuery { assert n in multiset(r); }
    }
    assert forall n :: n in serpData && MatchesSource(n, filter) && MatchesQuery(n, q) ==>
             multiset(r)[n] == multiset(serpData)[n] by {
      forall n | n in serpData && MatchesSource(n, filter) && MatchesQuery(n, q)
        ensures multiset(r)[n] == multiset(serpData)[n]
      {
        assert multiset(bySource)[n] == multiset(serpData)[n];
        assert n in multiset(bySource);
        assert multiset(byQuery)[n] == multiset(bySource)[n];
      }
    }
    r
  }

  /** Under a specific source filter every item shown carries exactly that
      source name; an item with no source, or a source without a name, is
      never shown. */
  lemma SourceFilterSound(serpData: seq<NewsItem>, query: string, filter: string)
    requires filter != All
    ensures forall i :: 0 <= i < |FilteredNews(serpData, query, filter)| ==>
              var n := FilteredNews(serpData, query, filter)[i];
              n.source.Some? && n.source.value.name == Some(filter)
  {
    var r := FilteredNews(serpData, query, filter);
    assert forall i :: 0 <= i < |r| ==> r[i] in r;
  }

  /** Every item shown matches the text query: the trimmed, lower-cased
      query is empty, or it occurs in the lower-cased title, or in the
      lower-cased snippet (a missing snippet reads as empty). */
  lemma QueryFilterSound(serpData: seq<NewsItem>, query: string, filter: string)
    ensures forall i :: 0 <= i < |FilteredNews(serpData, query, filter)| ==>
              var n := FilteredNews(serpData, query, filter)[i];
              var q := ToLower(Trim(query));
              || q == ""
              || (n.title.Some? && Contains(ToLower(n.title.value), q))
              || Contains(ToLower(n.snippet.GetOr("")), q)
  {
    var r := FilteredNews(serpData, query, filter);
    assert forall i :: 0 <= i < |r| ==> r[i] in r;
  }

  /** Running the pipeline on its own output yields the same sequence. */
  lemma FilteredNewsIdempotent(serpData: seq<NewsItem>, query: string, filter: string)
    ensures FilteredNews(FilteredNews(serpData, query, filter), query, filter)
            == FilteredNews(serpData, query, filter)
  {
    var r := FilteredNews(serpData, query, filter);
    var q := NormalizeQuery(query);
    assert forall i :: 0 <= i < |r| ==> r[i] in r;
    FilterKeepsAll(r, (n: NewsItem) => MatchesSource(n, filter));
    FilterKeepsAll(r, (n: NewsItem) => MatchesQuery(n, q));
    SortSortedIsIdentity(r);
  }

  /** With the `All` filter and a blank query nothing is dropped: the view is
      a permutation of the whole result list, and it is the list itself when
      that is already in position order. */
  lemma ShowAllKeepsEverything(serpData: seq<NewsItem>, query: string)
    requires AllWhitespace(query)
    ensures multiset(FilteredNews(serpData, query, All)) == multiset(serpData)
    ensures SortedByPosition(serpData) ==> FilteredNews(serpData, query, All) == serpData
  {
    var q := NormalizeQuery(query);
    assert q == "";
    FilterKeepsAll(serpData, (n: NewsItem) => MatchesSource(n, All));
    FilterKeepsAll(serpData, (n: NewsItem) => MatchesQuery(n, q));
    if SortedByPosition(serpData) {
      SortSortedIsIdentity(serpData);
    }
  }
}

=== FILE: news.dfy ===
/** One search result as the remote endpoint returns it. */
module News {
  import opened Wrappers

  /** The `source` object of a result; its `name` may be absent. */
  datatype Source = Source(name: Option<string>)

  /** A news result. `link` identifies it; `title`, `snippet` and `source`
      may be absent; `position` is the rank the search engine gave it. */
  datatype NewsItem = NewsItem(
    link: string,
    title: Option<string>,
    snippet: Option<string>,
    source: Option<Source>,
    date: string,
    thumbnail: string,
    position: int)

  /** `n.source?.name`: absent when either the source or its name is. */
  function SourceName(n: NewsItem): (r: Option<string>)
    ensures r.Some? <==> n.source.Some? && n.source.value.name.Some?
    ensures r.Some? ==> r.value == n.source.value.name.value
  {
    match n.source
    case None => None
    case Some(src) => src.name
  }
}

=== FILE: pagination.dfy ===
/** Fixed-size pages over the filtered view. */
module Pagination {

  /** `itemsPerPage`. */
  const ItemsPerPage: nat := 4

  function Min(a: int, b: int): int {
    if a <= b then a else b
  }

  /** `Math.ceil(count / itemsPerPage)`: the fewest pages of four that hold
      `count` items. */
  function TotalPages(count: nat): (t: nat)
    ensures count <= t * ItemsPerPage
    ensures t == 0 || (t - 1) * ItemsPerPage < count
    ensures t == 0 <==> count == 0
  {
    (count + ItemsPerPage - 1) / ItemsPerPage
  }

  /** The index `Array.prototype.slice` derives from an argument: negative
      values count back from the end, and the result is clamped to
      `[0, len]`. */
  function SliceIndex(i: int, len: nat): (k: nat)
    ensures k <= len
    ensures 0 <= i <= len ==> k == i
    ensures i > len ==> k == len
    ensures i < 0 ==> k == if len + i < 0 then 0 else len + i
  {
    if i < 0 then (if len + i < 0 then 0 else len + i)
    else if i > len then len
    else i
  }

  /** `xs.slice(start, end)`. */
  function JsSlice<T>(xs: seq<T>, start: int, end: int): (r: seq<T>)
    ensures |r| <= |xs|
    ensures SliceIndex(start, |xs|) < SliceIndex(end, |xs|) ==>
              r == xs[SliceIndex(start, |xs|)..SliceIndex(end, |xs|)]
    ensures SliceIndex(end, |xs|) <= SliceIndex(start, |xs|) ==> r == []
  {
    var from := SliceIndex(start, |xs|);
    var to := SliceIndex(end, |xs|);
    if from < to then xs[from..to] else []
  }

  /** `paginatedData`: the slice of the filtered list shown on `page`. */
  function PageOf<T>(xs: seq<T>, page: int): (r: seq<T>)
    ensures page >= 1 ==> |r| <= ItemsPerPage
  {
    JsSlice(xs, (page - 1) * ItemsPerPage, page * ItemsPerPage)
  }

  /** A page in range holds the next up-to-four items of the list, starting
      at item `(page - 1) * 4`, and is never empty. */
  lemma PageInRange<T>(xs: seq<T>, page: int)
    requires 1 <= page <= TotalPages(|xs|)
    ensures PageOf(xs, page) == xs[(page - 1) * ItemsPerPage..Min(page * ItemsPerPage, |xs|)]
    ensures 1 <= |PageOf(xs, page)| <= ItemsPerPage
  {
  }

  /** A current page beyond the last one (left behind when the filter
      narrows the list) shows nothing. */
  lemma PageBeyondLastIsEmpty<T>(xs: seq<T>, page: int)
    requires page > TotalPages(|xs|)
    ensures PageOf(xs, page) == []
  {
  }

  /** Item `i` of the list is item `i % 4` of page `i / 4 + 1`. */
  lemma ItemOnItsPage<T>(xs: seq<T>, i: nat)
    requires i < |xs|
    ensures 1 <= i / ItemsPerPage + 1 <= TotalPages(|xs|)
    ensures i % ItemsPerPage < |PageOf(xs, i / ItemsPerPage + 1)|
    ensures PageOf(xs, i / ItemsPerPage + 1)[i % ItemsPerPage] == xs[i]
  {
    var p := i / ItemsPerPage + 1;
    PageInRange(xs, p);
  }

  /** Pages `1..k` laid end to end. */
  function PagesUpTo<T>(xs: seq<T>, k: nat): seq<T> {
    if k == 0 then [] else PagesUpTo(xs, k - 1) + PageOf(xs, k)
  }

  /** The first `k` pages hold exactly the first `4 * k` items. */
  lemma {:induction false} PagesUpToIsPrefix<T>(xs: seq<T>, k: nat)
    requires k <= TotalPages(|xs|)
    ensures PagesUpTo(xs, k) == xs[..Min(k * ItemsPerPage, |xs|)]
  {
    if k > 0 {
      PagesUpToIsPrefix(xs, k - 1);
      PageInRange(xs, k);
      var a := Min((k - 1) * ItemsPerPage, |xs|);
      var b := Min(k * ItemsPerPage, |xs|);
      assert xs[..a] + xs[a..b] == xs[..b];
    }
  }

  /** Concatenating pages `1..totalPages` gives back the whole list. */
  lemma AllPagesRebuildList<T>(xs: seq<T>)
    ensures PagesUpTo(xs, TotalPages(|xs|)) == xs
  {
    PagesUpToIsPrefix(xs, TotalPages(|xs|));
  }

  /** `goToPage`: moves to `target` when it names an existing page and
      otherwise stays on `current`. */
  function GoToPage(current: int, target: int, totalPages: nat): (r: int)
    ensures 1 <= target <= totalPages ==> r == target
    ensures !(1 <= target <= totalPages) ==> r == current
    ensures current >= 1 ==> r >= 1
  {
    if 1 <= target <= totalPages then target else current
  }

  /** After moving to a page other than the current one, that page is in
      range and therefore shows at least one item. */
  lemma GoToPageShowsItems<T>(xs: seq<T>, current: int, target: int)
    requires GoToPage(current, target, TotalPages(|xs|)) != current
    ensures |PageOf(xs, GoToPage(current, target, TotalPages(|xs|)))| >= 1
  {
    PageInRange(xs, target);
  }
}

=== FILE: search.dfy ===
/** The fetch-with-cache step (`getSerpData`) and the guard the debounced
    effect applies before calling it. */
module Search {
  import opened Wrappers
  import opened Text
  import opened News

  /** Results stored per submitted query; entries are never evicted. */
  type Cache = map<string, seq<NewsItem>>

  /** What the POST to the search endpoint produced: a response with its
      HTTP status and body, or a transport failure. */
  datatype FetchOutcome = Responded(status: int, data: seq<NewsItem>) | Failed

  /** The state `getSerpData` reads and writes, plus the query it sent over
      the network, if any. */
  datatype FetchResult = FetchResult(cache: Cache, serpData: seq<NewsItem>, request: Option<string>)

  /** How a cache lookup ended. */
  datatype Probe = Cached(items: seq<NewsItem>) | InheritedMember(name: string) | NotCached

  /** The members every plain JavaScript object inherits from
      `Object.prototype`; reading one of them off `{}` yields a function or
      an object, both of which are truthy. */
  const ObjectPrototypeMembers: set<string> := {
    "constructor", "hasOwnProperty", "isPrototypeOf", "propertyIsEnumerable",
    "toLocaleString", "toString", "valueOf", "__proto__",
    "__defineGetter__", "__defineSetter__", "__lookupGetter__", "__lookupSetter__"
  }

  /** `if (cacheRef.current[searchTerm])` as written: the cache is a plain
      object, so an inherited member counts as a hit. (A stored list is
      always truthy, even when empty.) */
  function ProbeAsWritten(cache: Cache, term: string): (p: Probe)
    ensures term in cache ==> p == Cached(cache[term])
    ensures term !in cache && term in ObjectPrototypeMembers ==> p == InheritedMember(term)
    ensures p.NotCached? <==> term !in cache && term !in ObjectPrototypeMembers
  {
    if term in cache then Cached(cache[term])
    else if term in ObjectPrototypeMembers then InheritedMember(term)
    else NotCached
  }

  /** The lookup the code intends: only queries stored by an earlier fetch
      are hits. */
  function ProbeOwn(cache: Cache, term: string): (p: Probe)
    ensures p.Cached? <==> term in cache
    ensures p.Cached? ==> p.items == cache[term]
    ensures !p.InheritedMember?
  {
    if term in cache then Cached(cache[term]) else NotCached
  }

  /** The as-written lookup treats a never-fetched query such as
      `toString` as cached, so no request is ever sent for it, while the
      intended lookup reports a miss. */
  lemma PrototypeNamesAreFalseHits(cache: Cache, term: string)
    requires term in ObjectPrototypeMembers && term !in cache
    ensures !ProbeAsWritten(cache, term).NotCached?
    ensures ProbeOwn(cache, term).NotCached?
  {
  }

  /** `toString` survives the debounce guard unchanged, so typing it reaches
      the lookup above, which on an empty cache reports a hit. */
  lemma PrototypeNameReachesLookup()
    ensures DebounceTarget("toString") == Some("toString")
  {
    var term := "toString";
    assert !IsWhitespace(term[0]) && !IsWhitespace(term[|term| - 1]);
    DebounceTargetOfTrimmed(term);
  }

  /** A non-empty query without surrounding whitespace is scheduled as
      typed. */
  lemma DebounceTargetOfTrimmed(query: string)
    requires |query| > 0 && !IsWhitespace(query[0]) && !IsWhitespace(query[|query| - 1])
    ensures DebounceTarget(query) == Some(query)
  {
    TrimOfTrimmed(query);
  }

  /** `getSerpData(term)` with the own-key lookup. A cached query adopts the
      stored list and sends nothing. Otherwise `term` is sent; a 200 response
      is stored under `term` and adopted, and any other status or a failure
      leaves cache and results as they were. */
  function GetSerpData(cache: Cache, serpData: seq<NewsItem>, term: string, outcome: FetchOutcome): (r: FetchResult)
    ensures r.request.None? <==> term in cache
    ensures r.request.Some? ==> r.request.value == term
    ensures forall k :: k in cache ==> k in r.cache && r.cache[k] == cache[k]
    ensures r.cache.Keys <= cache.Keys + {term}
    ensures r.serpData != serpData ==> term in r.cache && r.serpData == r.cache[term]
    ensures term in cache ==> r.serpData == cache[term] && r.cache == cache
    ensures term !in cache && outcome.Responded? && outcome.status == 200 ==>
              r.serpData == outcome.data && term in r.cache && r.cache[term] == outcome.data
    ensures term !in cache && !(outcome.Responded? && outcome.status == 200) ==>
              r.serpData == serpData && r.cache == cache
  {
    var probe := ProbeOwn(cache, term);
    if probe.Cached? then FetchResult(cache, probe.items, None)
    else
      match outcome
      case Responded(status, data) =>
        if status == 200 then FetchResult(cache[term := data], data, Some(term))
        else FetchResult(cache, serpData, Some(term))
      case Failed => FetchResult(cache, serpData, Some(term))
  }

  /** Once a query has been fetched successfully, asking for it again sends
      nothing and yields the same list, whatever the network would do. */
  lemma RepeatQueryHitsCache(cache: Cache, serpData: seq<NewsItem>, term: string,
                             first: FetchOutcome, later: seq<NewsItem>, second: FetchOutcome)
    requires first.Responded? && first.status == 200
    ensures var r1 := GetSerpData(cache, serpData, term, first);
            var r2 := GetSerpData(r1.cache, later, term, second);
            r2.request.None? && r2.serpData == r1.cache[term] && r2.cache == r1.cache
  {
  }

  lemma EmptyCacheHitsOnToString()
    ensures !ProbeAsWritten(map[], "toString").NotCached?
  {
  }

  /** The debounce guard: a blank query schedules nothing; any other query
      schedules a fetch of its trimmed text. */
  function DebounceTarget(query: string): (t: Option<string>)
    ensures t.None? <==> AllWhitespace(query)
    ensures t.Some? ==> t.value == Trim(query) && t.value != "" && Trim(t.value) == t.value
  {
    TrimEmptyIff(query);
    TrimIdempotent(query);
    var trimmed := Trim(query);
    if trimmed == "" then None else Some(trimmed)
  }
}

=== FILE: seqs.dfy ===
/** Generic sequence helpers: an order-preserving filter (the model of
    JavaScript's `Array.prototype.filter`), duplicate freedom, and the
    first-seen de-duplication a JavaScript `Set` performs. */
module Seqs {

  /** Keeps, in order, the elements that satisfy `p`. */
  function Filter<T>(xs: seq<T>, p: T -> bool): (r: seq<T>)
    ensures |r| <= |xs|
    ensures forall i :: 0 <= i < |r| ==> p(r[i])
    ensures forall x :: x in r ==> x in xs && p(x)
    ensures multiset(r) <= multiset(xs)
    ensures forall x :: x in xs && p(x) ==> multiset(r)[x] == multiset(xs)[x]
  {
    if |xs| == 0 then []
    else
      assert xs == [xs[0]] + xs[1..];
      (if p(xs[0]) then [xs[0]] else []) + Filter(xs[1..], p)
  }

  /** Filtering distributes over concatenation: the relative order of the
      kept elements is the order they had in the input. */
  lemma {:induction false} FilterAppend<T>(a: seq<T>, b: seq<T>, p: T -> bool)
    ensures Filter(a + b, p) == Filter(a, p) + Filter(b, p)
    decreases |a|
  {
    if |a| == 0 {
      assert a + b == b;
    } else {
      assert (a + b)[1..] == a[1..] + b;
      FilterAppend(a[1..], b, p);
    }
  }

  /** A filter that rejects nothing returns its input unchanged. */
  lemma {:induction false} FilterKeepsAll<T>(xs: seq<T>, p: T -> bool)
    requires forall i :: 0 <= i < |xs| ==> p(xs[i])
    ensures Filter(xs, p) == xs
    decreases |xs|
  {
    if |xs| > 0 {
      FilterKeepsAll(xs[1..], p);
    }
  }

  predicate NoDup<T(==)>(xs: seq<T>) {
    forall i, j :: 0 <= i < j < |xs| ==> xs[i] != xs[j]
  }

  /** Putting a fresh element in front keeps a sequence duplicate-free. */
  lemma ConsNoDup<T>(x: T, xs: seq<T>)
    requires NoDup(xs) && x !in xs
    ensures NoDup([x] + xs)
  {
    var ys := [x] + xs;
    forall i, j | 0 <= i < j < |ys| ensures ys[i] != ys[j] {
      assert ys[j] == xs[j - 1];
      if i > 0 { assert ys[i] == xs[i - 1]; }
    }
  }

  /** Filtering keeps a sequence duplicate-free. */
  lemma {:induction false} FilterNoDup<T>(xs: seq<T>, p: T -> bool)
    requires NoDup(xs)
    ensures NoDup(Filter(xs, p))
    decreases |xs|
  {
    if |xs| > 0 {
      var h := xs[0];
      var t := xs[1..];
      var rt := Filter(t, p);
      assert NoDup(t) by {
        forall i, j | 0 <= i < j < |t| ensures t[i] != t[j] { assert t[i] == xs[i + 1] && t[j] == xs[j + 1]; }
      }
      FilterNoDup(t, p);
      if p(h) {
        assert h !in t by {
          forall k | 0 <= k < |t| ensures t[k] != h { assert t[k] == xs[k + 1]; }
        }
        assert h !in multiset(rt);
        ConsNoDup(h, rt);
      }
    }
  }

  /** In a duplicate-free sequence every value occurs at most once. */
  lemma {:induction false} NoDupCountAtMostOne<T>(xs: seq<T>, x: T)
    requires NoDup(xs)
    ensures multiset(xs)[x] <= 1
    decreases |xs|
  {
    if |xs| > 0 {
      assert xs == [xs[0]] + xs[1..];
      NoDupCountAtMostOne(xs[1..], x);
      assert xs[0] == x ==> x !in xs[1..];
    }
  }

  /** A sequence whose every element is `x` holds `x` once per element. */
  lemma {:induction false} ConstantCount<T>(xs: seq<T>, x: T)
    requires forall k :: 0 <= k < |xs| ==> xs[k] == x
    ensures multiset(xs)[x] == |xs|
    decreases |xs|
  {
    if |xs| > 0 {
      assert xs == [xs[0]] + xs[1..];
      ConstantCount(xs[1..], x);
    }
  }

  /** Index of the first occurrence of `x` in `xs`. */
  function FirstIndex<T(==)>(xs: seq<T>, x: T): (k: nat)
    requires x in xs
    ensures k < |xs| && xs[k] == x
    ensures forall i :: 0 <= i < k ==> xs[i] != x
  {
    if xs[0] == x then 0 else 1 + FirstIndex(xs[1..], x)
  }

  /** Appending elements does not move a first occurrence. */
  lemma {:induction false} FirstIndexPrefix<T>(xs: seq<T>, ys: seq<T>, x: T)
    requires x in xs
    ensures FirstIndex(xs + ys, x) == FirstIndex(xs, x)
  {
    var k := FirstIndex(xs, x);
    var k' := FirstIndex(xs + ys, x);
    assert (xs + ys)[k] == x;
  }

  /** The distinct elements of `xs`, each kept at its first occurrence, in
      the order those first occurrences appear. This is the iteration order
      of a JavaScript `Set` built from `xs`. */
  function Distinct<T(==)>(xs: seq<T>): (d: seq<T>)
    ensures NoDup(d)
    ensures forall x :: x in d ==> x in xs
    ensures forall x :: x in xs ==> x in d
    ensures forall i, j :: 0 <= i < j < |d| ==> FirstIndex(xs, d[i]) < FirstIndex(xs, d[j])
    decreases |xs|
  {
    if |xs| == 0 then []
    else
      var init := xs[..|xs| - 1];
      var last := xs[|xs| - 1];
      var d := Distinct(init);
      assert xs == init + [last];
      assert forall x :: x in d ==> FirstIndex(xs, x) == FirstIndex(init, x) by {
        forall x | x in d {
          FirstIndexPrefix(init, [last], x);
        }
      }
      if last in d then d
      else
        assert FirstIndex(xs, last) == |xs| - 1;
        d + [last]
  }
}

=== FILE: text.dfy ===
/** The string operations the feed relies on: ECMAScript
    `String.prototype.trim`, `toLowerCase` (ASCII letters only) and
    `includes`. */
module Text {

  /** The characters `trim` strips: ECMAScript's WhiteSpace (tab, vertical
      tab, form feed, space, no-break space, byte order mark and the Unicode
      "Zs" space separators) and LineTerminator (line feed, carriage return,
      line and paragraph separators). */
  predicate IsWhitespace(c: char) {
    || c == '\t' || c == '\n' || c == '\U{000B}' || c == '\U{000C}' || c == '\r'
    || c == ' ' || c == '\U{00A0}' || c == '\U{1680}'
    || ('\U{2000}' <= c <= '\U{200A}')
    || c == '\U{2028}' || c == '\U{2029}' || c == '\U{202F}' || c == '\U{205F}'
    || c == '\U{3000}' || c == '\U{FEFF}'
  }

  predicate AllWhitespace(s: string) {
    forall i :: 0 <= i < |s| ==> IsWhitespace(s[i])
  }

  lemma AllWhitespaceAppend(a: string, b: string)
    ensures AllWhitespace(a + b) <==> AllWhitespace(a) && AllWhitespace(b)
  {
    if AllWhitespace(a) && AllWhitespace(b) {
      forall k | 0 <= k < |a + b| ensures IsWhitespace((a + b)[k]) {
        if k < |a| { assert (a + b)[k] == a[k]; } else { assert (a + b)[k] == b[k - |a|]; }
      }
    }
    if AllWhitespace(a + b) {
      forall k | 0 <= k < |a| ensures IsWhitespace(a[k]) { assert (a + b)[k] == a[k]; }
      forall k | 0 <= k < |b| ensures IsWhitespace(b[k]) { assert (a + b)[|a| + k] == b[k]; }
    }
  }

  /** Drops the leading whitespace: the result is the suffix of `s` that
      starts at its first non-whitespace character. */
  function TrimStart(s: string): (r: string)
    ensures |r| <= |s| && r == s[|s| - |r|..]
    ensures AllWhitespace(s[..|s| - |r|])
    ensures |r| == 0 || !IsWhitespace(r[0])
    decreases |s|
  {
    if |s| > 0 && IsWhitespace(s[0]) then
      var r := TrimStart(s[1..]);
      var k := |s| - |r|;
      SliceOfSuffix(s, 1, k - 1);
      PrefixCons(s, k);
      AllWhitespaceAppend([s[0]], s[1..][..k - 1]);
      r
    else
      assert s[..0] == [];
      s
  }

  /** Drops the trailing whitespace: the result is the prefix of `s` that
      ends at its last non-whitespace character. */
  function TrimEnd(s: string): (r: string)
    ensures |r| <= |s| && r == s[..|r|]
    ensures AllWhitespace(s[|r|..])
    ensures |r| == 0 || !IsWhitespace(r[|r| - 1])
    decreases |s|
  {
    if |s| > 0 && IsWhitespace(s[|s| - 1]) then
      var init := s[..|s| - 1];
      var r := TrimEnd(init);
      assert init[..|r|] == s[..|r|];
      assert s[|r|..] == init[|r|..] + [s[|s| - 1]];
      AllWhitespaceAppend(init[|r|..], [s[|s| - 1]]);
      r
    else
      assert s[|s|..] == [];
      s
  }

  /** `r` is `s` with the whitespace run `s[..i]` removed in front and only
      whitespace removed behind. */
  predicate TrimmedAt(s: string, r: string, i: int) {
    && 0 <= i && i + |r| <= |s|
    && s[i..i + |r|] == r
    && AllWhitespace(s[..i])
    && AllWhitespace(s[i + |r|..])
  }

  /** `s.trim()`: whitespace removed from both ends; the result neither
      starts nor ends with whitespace. */
  function Trim(s: string): (r: string)
    ensures |r| == 0 || (!IsWhitespace(r[0]) && !IsWhitespace(r[|r| - 1]))
  {
    var t := TrimStart(s);
    var r := TrimEnd(t);
    assert |r| > 0 ==> r[0] == t[0];
    r
  }

  /** What `Trim` removes is whitespace only: the result is an infix of
      `s` with nothing but whitespace before and after it. */
  lemma TrimIsInfix(s: string)
    ensures exists i :: TrimmedAt(s, Trim(s), i)
  {
    var t := TrimStart(s);
    var r := TrimEnd(t);
    var i := |s| - |t|;
    assert Trim(s) == r;
    SliceOfSuffix(s, i, |r|);
    assert t == s[i..];
    assert r == s[i..i + |r|];
    assert t[|r|..] == s[i + |r|..];
    assert TrimmedAt(s, r, i);
  }

  lemma PrefixCons(s: string, k: nat)
    requires 1 <= k <= |s|
    ensures s[..k] == [s[0]] + s[1..][..k - 1]
  {
  }

  /** Slicing a suffix is slicing the original at shifted indices. */
  lemma SliceOfSuffix(s: string, i: nat, j: nat)
    requires i + j <= |s|
    ensures s[i..][..j] == s[i..i + j]
    ensures s[i..][j..] == s[i + j..]
  {
  }

  /** A string that neither starts nor ends with whitespace is its own
      trim. */
  lemma TrimOfTrimmed(s: string)
    requires |s| == 0 || (!IsWhitespace(s[0]) && !IsWhitespace(s[|s| - 1]))
    ensures Trim(s) == s
  {
    var t := TrimStart(s);
    assert t == s by {
      if |s| > 0 { assert !IsWhitespace(s[0]); }
    }
    var r := TrimEnd(t);
    assert r == t by {
      if |t| > 0 { assert !IsWhitespace(t[|t| - 1]); }
    }
  }

  /** Trimming a trimmed string changes nothing. */
  lemma TrimIdempotent(s: string)
    ensures Trim(Trim(s)) == Trim(s)
  {
    TrimOfTrimmed(Trim(s));
  }

  lemma TrimStartEmptyIff(s: string)
    ensures TrimStart(s) == "" <==> AllWhitespace(s)
  {
    var r := TrimStart(s);
    if r != "" {
      assert r[0] == s[|s| - |r|];
    } else {
      assert s[..|s|] == s;
    }
  }

  lemma TrimEndEmptyIff(s: string)
    ensures TrimEnd(s) == "" <==> AllWhitespace(s)
  {
    var r := TrimEnd(s);
    if r != "" {
      assert r[0] == s[0];
    } else {
      assert s[0..] == s;
    }
  }

  /** A string trims to empty exactly when it is all whitespace. */
  lemma TrimEmptyIff(s: string)
    ensures Trim(s) == "" <==> AllWhitespace(s)
  {
    var t := TrimStart(s);
    TrimStartEmptyIff(s);
    TrimEndEmptyIff(t);
    assert t != "" ==> !IsWhitespace(t[0]);
  }

  /** ASCII lower-casing of one character. */
  function LowerChar(c: char): (d: char)
    ensures 'A' <= c <= 'Z' ==> 'a' <= d <= 'z' && d as int - c as int == 32
    ensures !('A' <= c <= 'Z') ==> d == c
  {
    if 'A' <= c <= 'Z' then (c as int + 32) as char else c
  }

  /** `s.toLowerCase()` on ASCII letters: same length, each upper-case ASCII
      letter replaced by its lower-case form, everything else kept. */
  function ToLower(s: string): (r: string)
    ensures |r| == |s|
    ensures forall i :: 0 <= i < |s| ==> r[i] == LowerChar(s[i])
  {
    seq(|s|, i requires 0 <= i < |s| => LowerChar(s[i]))
  }

  /** A lower-cased string contains no upper-case ASCII letter, so
      lower-casing it again changes nothing. */
  lemma ToLowerIdempotent(s: string)
    ensures ToLower(ToLower(s)) == ToLower(s)
  {
  }

  /** `sub` occurs in `s` starting at index `i`. */
  predicate OccursAt(s: string, sub: string, i: int) {
    0 <= i && i + |sub| <= |s| && s[i..i + |sub|] == sub
  }

  /** `s.includes(sub)`: `sub` occurs in `s` at some position. */
  predicate Contains(s: string, sub: string) {
    exists i :: 0 <= i <= |s| && OccursAt(s, sub, i)
  }
}

=== FILE: wrappers.dfy ===
/** The optional value used for the fields a news item may lack and for
    lookups that can miss. */
module Wrappers {

  datatype Option<+T> = None | Some(value: T) {

    /** The wrapped value, or `default` when there is none. */
    function GetOr(default: T): T {
      match this
      case Some(v) => v
      case None => default
    }
  }
}
